=== FILE: README.md ===
# Blog template: post store, search filter and legacy blog manager in Dafny

This project models the three pieces of real logic in a template blog site:

- **The post store reader** (`src/lib/posts.ts`). `getSortedPostsData` turns
  every file of the posts directory into a `Post`. The slug is the file name
  without a trailing `.mdx`, and the other fields come from the file's front
  matter. The posts are then sorted newest first, comparing `date` strings
  with `<`. `getPostData(slug)` reads the single file `slug + ".mdx"`.
- **The search filter of the blog index** (`src/components/blog-list.tsx`).
  It keeps the posts whose lower-cased title, excerpt or category contains
  the lower-cased query.
- **The legacy blog manager** (`_legacy_backup/js/script.js`). This is a
  browser script that saves blogs in `localStorage`. It validates the
  create form, puts the new blog first, computes a read time, shows a
  preview of a blog by id, and hides or shows articles for a search.

Modules:

| file | module | what it holds |
|---|---|---|
| `outcome.dfy` | `Outcome` | `Option` (for `undefined`/`null`) and `Result` (a value or a thrown error) |
| `text.dfy` | `Text` | the JavaScript string operations used: ASCII `toLowerCase`, `includes`, string `<`, `split(' ')`/`join`, number to decimal string |
| `posts.dfy` | `Posts` | `Post`, the directory, `getSortedPostsData`, `getPostData` |
| `blog_list.dfy` | `BlogList` | the `filteredPosts` filter |
| `legacy_blogs.dfy` | `LegacyBlogs` | `createBlog`, `loadBlogs`, `viewBlog`, `searchBlogs` |

Modelling choices:

- The file system is a `Directory` value. It is either `Missing` or the list
  of its files (name and text) in enumeration order.
- The front-matter parser is a function parameter `parse`. For a file's text
  it returns either the metadata map and the body, or the error it throws.
  The listing stops at the first file whose parse throws, because the
  exception leaves the `map` callback.
- The object `{ slug, ...data, content }` is modelled as a map, `Spread`,
  built with map `+`, whose right operand wins just as a later part of the
  literal does. Each `Post` field is that map's property of the same name.
  So a metadata key `slug` overrides the derived slug, and the body always
  wins over a metadata key `content` (`MakePostPrecedence`). A field absent
  from the metadata is `None`, which stands for `undefined`.
- Comparing `undefined` with `<` gives false. So `DateBefore` holds only when
  both dates are set and the first is smaller.
- ECMAScript leaves the result of `sort` implementation-defined when the
  comparator is inconsistent. This comparator is inconsistent: it returns
  `-1` both ways for equal dates, and also both ways whenever either date
  is missing, because a comparison with `undefined` is false. The model uses insertion sort.
  `NewestFirstUnique` shows the choice does not matter when every date is
  set and no two are equal: only one newest-first order exists then.
- In the legacy script, `localStorage` becomes a `Store`. `None` means there
  is no `blogs` key. `Date.now()`, the formatted date and the uploaded
  image's object URL are parameters. Each operation returns the new store
  and the text of its alert.

Three behaviours of the code that a reader of the site might not expect:

- Equal dates are not kept in a stable order. The comparator never returns
  0, so the order of posts with equal dates is unspecified, and the model
  states no stability.
- The view layer does not guard against missing metadata.
  `post.title.toLowerCase()` throws when the title is missing. So a post
  without a title makes the whole filter throw (`FilterThrowsIff`). Take a
  post with title "Hello", category "Tech" and no excerpt. The query "xyz"
  does not give an empty result: it throws on the missing excerpt
  (`HelloExample`).
- Finding a listed post again by its slug works when the file name ends in
  `.mdx` and the metadata's `slug`, if any, equals the slug derived from the
  file name (`ListedPostFoundBySlug`). A file without `.mdx`
  (`UnsuffixedFileNotFound`) or one whose metadata names another slug
  (`ForeignSlugNotFound`) can be listed yet not found.

## Model

| member | source | states |
|---|---|---|
| Text.LowerIdempotent | src/components/blog-list.tsx:18-20 | lower-casing an already lower-cased string changes nothing |
| Text.Lower | src/components/blog-list.tsx:18-20 | `toLowerCase` keeps the length, maps each character on its own, and leaves no upper-case ASCII letter |
| Text.Includes | src/components/blog-list.tsx:18-20 | `includes` is true for the empty query and false for a query longer than the text; its exact meaning is `IncludesIsOccurs` |
| Text.IncludesIsOccurs | src/components/blog-list.tsx:18-20 | `includes` is true exactly when the query occurs as a contiguous substring at some index |
| Text.IncludesNeedsFirstChar | src/components/blog-list.tsx:18-20 | a query whose first character does not appear in the text is not included |
| Text.Less | src/lib/posts.ts:40 | string `<` is irreflexive, needs a non-empty right side, and puts the empty string below every non-empty one |
| Text.LessIsLessAt | src/lib/posts.ts:40 | string `<` holds exactly when, after a common prefix, the first string ends or has the smaller character |
| Text.LessAsymmetric | src/lib/posts.ts:40 | `a < b` and `b < a` never both hold |
| Text.LessTotal | src/lib/posts.ts:40 | two different strings are ordered one way or the other |
| Text.LessTransitive | src/lib/posts.ts:40 | string `<` is transitive |
| Text.Split | _legacy_backup/js/script.js:83 | `split(' ')` yields one more piece than there are spaces, and no piece contains a space |
| Text.JoinSplit | _legacy_backup/js/script.js:83 | joining the pieces of `split(' ')` with spaces gives back the content |
| Text.SplitJoin | _legacy_backup/js/script.js:83 | splitting a join of space-free pieces gives back exactly those pieces |
| Text.Decimal | _legacy_backup/js/script.js:83 | the decimal form of the minutes is non-empty, all digits, with no leading zero |
| Text.DecimalRoundTrip | _legacy_backup/js/script.js:83 | reading the decimal form back gives the number |
| Posts.Slug | src/lib/posts.ts:27 | the slug plus `.mdx` is the file name when the name ends in `.mdx`; otherwise the slug is the name unchanged |
| Posts.SlugOfFileName | src/lib/posts.ts:27 | for a name `s + ".mdx"` the slug is `s`, so `a.mdx.mdx` gives `a.mdx` |
| Posts.FileNameOfSlug | src/lib/posts.ts:27 | adding `.mdx` to a name's slug gives the name back exactly when the name ends in `.mdx` |
| Posts.Spread | src/lib/posts.ts:32-36 | the object `{ slug, ...data, content }` has the metadata's keys plus `slug` and `content`; `slug` is the metadata's if present, else the derived one; `content` is the body; every other metadata key keeps its value |
| Posts.MakePost | src/lib/posts.ts:32-36 | every field of the post is the same-named property of the object `{ slug, ...data, content }`, with later parts of the literal overriding earlier ones; a missing property is undefined |
| Posts.MakePostPrecedence | src/lib/posts.ts:58-62 | through the spread, a metadata `slug` replaces the derived slug, the body replaces any metadata `content`, and the other fields are the metadata's values |
| Posts.ReadEntries | src/lib/posts.ts:25-37 | succeeds exactly when every file parses; then it gives one post per file, in order, with no extension filtering |
| Posts.ReadEntriesFirstError | src/lib/posts.ts:26-30 | a failed listing carries the error of the first file, in enumeration order, whose parse throws |
| Posts.DateBefore | src/lib/posts.ts:40 | `a.date < b.date` needs both dates set and different, and for two set, different dates it holds exactly when the reverse comparison does not |
| Posts.Insert | src/lib/posts.ts:39-45 | inserting adds exactly the one post to the multiset of posts |
| Posts.InsertNewestFirst | src/lib/posts.ts:39-45 | inserting into a newest-first list keeps it newest first |
| Posts.SortByDate | src/lib/posts.ts:39-45 | the sorted list is a permutation of the input |
| Posts.SortByDateNewestFirst | src/lib/posts.ts:39-45 | after sorting, no post is followed by one whose date is greater under `<` |
| Posts.NewestFirstUnique | src/lib/posts.ts:39-45 | when all dates are set and distinct, two newest-first permutations of the same posts are equal |
| Posts.GetSortedPostsData | src/lib/posts.ts:19-46 | a missing directory gives the empty list; otherwise the listing fails exactly when some file fails to parse, and has one post per file, a permutation of the mapped posts |
| Posts.ListingNewestFirst | src/lib/posts.ts:39-45 | consecutive dates in the listing never increase under string `<` |
| Posts.ListingIsTheNewestFirstOrder | src/lib/posts.ts:39-45 | with set and distinct dates, every newest-first permutation of the posts is the listing |
| Posts.FindEntry | src/lib/posts.ts:49-55 | finds a file exactly when the directory holds that name, and returns that file's text |
| Posts.GetPostData | src/lib/posts.ts:48-63 | absent exactly when there is no file `slug + ".mdx"`; otherwise that file's parse error, or the post built from its metadata and body |
| Posts.LookupAgreesWithListing | src/lib/posts.ts:25-62 | for the file `s + ".mdx"`, `getPostData(s)` equals the post the listing holds for that file |
| Posts.ListedPostFoundBySlug | src/lib/posts.ts:27-36 | a listed post from a `.mdx` file whose metadata sets no slug, or sets the derived one, is found again by its own slug |
| Posts.ForeignSlugNotFound | src/lib/posts.ts:32-36 | a file `a.mdx` whose metadata sets the slug `b` is listed as `b`, and looking up `b` finds nothing |
| Posts.UnsuffixedFileNotFound | src/lib/posts.ts:27-62 | a file without `.mdx`, whose metadata sets no `slug` and with no sibling `name + ".mdx"`, is listed under its full name, and looking that name up gives absent |
| Posts.ThreeDatesListing | src/lib/posts.ts:39-45 | files dated 2023-01-01, 2023-06-15 and 2022-12-31 are listed as 2023-06-15, 2023-01-01, 2022-12-31 |
| BlogList.FieldIncludes | src/components/blog-list.tsx:18-20 | one field's test throws a TypeError naming the field exactly when it is undefined, and is otherwise true exactly when the lowered field contains the lowered query |
| BlogList.PostMatches | src/components/blog-list.tsx:17-21 | the filter callback throws exactly when `||` reaches an undefined field before a match, and otherwise answers whether title, excerpt or category contains the query |
| BlogList.Filter | src/components/blog-list.tsx:17 | a result is never longer than the input and holds only input posts |
| BlogList.FilterThrowsIff | src/components/blog-list.tsx:17-21 | the filter throws exactly when some post's callback throws |
| BlogList.FilterKeepsExactlyMatches | src/components/blog-list.tsx:17-21 | soundness and completeness: a post is in the result exactly when it is in the input and its title, excerpt or category contains the query, ignoring case |
| BlogList.FilterCounts | src/components/blog-list.tsx:17-21 | each post occurs in the result as often as in the input when it matches the query, and not at all otherwise, so equal posts are all kept |
| BlogList.FilterIsSubsequence | src/components/blog-list.tsx:17 | the result is a subsequence of the input, so input order is kept |
| BlogList.FilterEmptyQuery | src/components/blog-list.tsx:17-21 | the empty query returns the input unchanged when every title is set, and throws otherwise |
| BlogList.FilterIdempotent | src/components/blog-list.tsx:17-21 | filtering the result again with the same query gives the same result |
| BlogList.FilterIgnoresQueryCase | src/components/blog-list.tsx:18-20 | queries equal up to ASCII letter case give the same outcome |
| BlogList.FilterReadsOnlySearchFields | src/components/blog-list.tsx:18-20 | slug, author, date, image, read time and content never change whether the filter throws or which posts it keeps |
| BlogList.FilterLowerQuery | src/components/blog-list.tsx:18-20 | filtering with the lower-cased query gives the same outcome as filtering with the query as typed |
| BlogList.HelloExample | src/components/blog-list.tsx:17-21 | a post titled "Hello" is kept for "hel"; with no excerpt, "xyz" throws |
| LegacyBlogs.Stored | _legacy_backup/js/script.js:87 | `JSON.parse(localStorage.getItem('blogs')) || []`: no saved entry gives the empty list, and a saved list is used as is |
| LegacyBlogs.Complete | _legacy_backup/js/script.js:71 | the form passes `!title || !author || !content` exactly when all three fields are non-empty |
| LegacyBlogs.WordCount | _legacy_backup/js/script.js:83 | `content.split(' ').length` is the number of spaces plus one |
| LegacyBlogs.Minutes | _legacy_backup/js/script.js:83 | the minutes are the ceiling of words / 200 |
| LegacyBlogs.ReadTimeBounds | _legacy_backup/js/script.js:83 | words are spaces plus one; minutes are at least 1, and (minutes-1)*200 < words <= minutes*200 |
| LegacyBlogs.ReadTimeLabel | _legacy_backup/js/script.js:83 | the read-time label is a non-empty run of decimal digits, with no leading zero when there are several, followed by " min read" |
| LegacyBlogs.ReadTimeLabelRoundTrip | _legacy_backup/js/script.js:83 | the read-time label is the minutes' canonical decimal digits (no leading zero) followed by " min read", and the minutes can be read back from it |
| LegacyBlogs.NewBlog | _legacy_backup/js/script.js:76-84 | id, title, author, content, image and date are the clock value, the form's fields, the image URL and the formatted date; the read time is digits with no leading zero plus " min read", and those digits m satisfy (m-1)*200 < spaces+1 <= m*200 |
| LegacyBlogs.CreateBlog | _legacy_backup/js/script.js:65-102 | an empty title, author or content leaves the store unchanged and alerts; otherwise the list grows by one, with the new blog first and the old blogs after it in order |
| LegacyBlogs.CreateOnEmptyStore | _legacy_backup/js/script.js:87-89 | with no saved list, a successful create saves a list holding only the new blog |
| LegacyBlogs.FindById | _legacy_backup/js/script.js:137 | returns the first index whose id matches, or none when no blog has the id |
| LegacyBlogs.Preview | _legacy_backup/js/script.js:140 | the preview is the prefix of the content of length min(100, length) |
| LegacyBlogs.ViewAlert | _legacy_backup/js/script.js:140 | the alert starts with the title and author lines, its content line is exactly the preview `substring(0, 100)`, it ends with "...", and it is 29 characters longer than title, author and preview together |
| LegacyBlogs.ViewBlog | _legacy_backup/js/script.js:135-142 | no alert exactly when no saved blog has the id; otherwise the alert of the first blog with that id |
| LegacyBlogs.ViewAfterCreate | _legacy_backup/js/script.js:76-89 | viewing the id of a blog just created shows that blog, even when an older blog shares the id |
| LegacyBlogs.Render | _legacy_backup/js/script.js:117-133 | the article shows the blog's title and author, its first `div` is the whitespace-only image container, and its image source is never empty: the blog's image when set and non-empty, else `img/1.png` |
| LegacyBlogs.LoadBlogs | _legacy_backup/js/script.js:104-115 | a missing saved list renders nothing; otherwise one article per blog, in saved order |
| LegacyBlogs.LoadAfterCreate | _legacy_backup/js/script.js:87-99 | after a successful create the reloaded page shows the new blog's article first, followed by exactly the articles shown before |
| LegacyBlogs.SearchBlogsAsWritten | _legacy_backup/js/script.js:144-155 | an article is shown exactly when its lower-cased title, or its first `div`'s lower-cased text, contains the query |
| LegacyBlogs.SearchBlogs | _legacy_backup/js/script.js:144-155 | corrected: an article is shown exactly when its lower-cased title or author contains the query |
| LegacyBlogs.SearchAsWritten | _legacy_backup/js/script.js:17-23 | the submit handler as run: a saved blog is shown exactly when its title contains the lower-cased query, or the query occurs in the image container's whitespace; the author plays no part |
| LegacyBlogs.SearchAsIntended | _legacy_backup/js/script.js:17-23 | the handler with the corrected search: a saved blog is shown exactly when its title or author contains the lower-cased query |
| LegacyBlogs.SearchIgnoresQueryCase | _legacy_backup/js/script.js:21 | typed queries equal up to ASCII letter case show the same articles |
| LegacyBlogs.NotInImageDiv | _legacy_backup/js/script.js:120-123 | a query holding any character other than space or newline never occurs in the image container's text |
| LegacyBlogs.SearchAsWrittenIgnoresAuthor | _legacy_backup/js/script.js:144-155 | as written, for such a query an article is shown exactly when its title matches, whatever its author |
| LegacyBlogs.SearchAsWrittenMissesAuthor | _legacy_backup/js/script.js:148 | a blog "Tea" by "Ann" is hidden for the query "ann" as written, and shown by the intended search |

## Findings

| source | as written | input that shows it | evidently intended | confidence | as-written member | corrected member |
|---|---|---|---|---|---|---|
| _legacy_backup/js/script.js:148 | `article.querySelector('div')` returns the first `div` inside the article. That is the image container from lines 121-123, whose text is only whitespace, so the author is never searched | a saved blog titled "Tea" by "Ann", searched for "ann": the article is hidden | test the author `div` (line 128), so an article is shown when its title or author contains the query | high; not executed | LegacyBlogs.SearchAsWrittenMissesAuthor | LegacyBlogs.SearchAsIntended |

`LegacyBlogs.SearchBlogsAsWritten` is the search as written, and
`LegacyBlogs.SearchBlogs` is the corrected one. The submit handler is
`LegacyBlogs.SearchAsWritten` as the page runs it, and
`LegacyBlogs.SearchAsIntended` with the corrected search.

## Left out

- File system access is not modelled: `fs.existsSync`, `readdirSync`,
  `readFileSync` and the `process.cwd()` path. Read errors other than a
  missing file are left out too, such as a subdirectory in the posts
  directory or a permission error. Every listed name is a readable file.
- Posts.GetPostData: the slug is looked up as a plain file name.
  `path.join` normalises slugs holding `/` or `..`, and that is not modelled.
- The front-matter parser (gray-matter) is a function parameter. Its syntax
  and YAML typing are not modelled. Metadata values are strings. An unquoted
  YAML date becomes a `Date` object in the source, and comparing those is not
  modelled.
- Extra metadata keys beyond the nine `Post` fields are not modelled. They
  ride along on the object but are never read.
- Posts.SortByDate: ECMAScript lets the engine choose the order for an
  inconsistent comparator. The model fixes insertion sort. Its proved
  properties are the ones any run keeps only when dates are set and
  distinct (see NewestFirstUnique).
- Strings use Unicode code points. JavaScript compares, measures and cuts
  strings in UTF-16 code units. So `<`, `length` and `substring` differ for
  characters outside the Basic Multilingual Plane.
- `toLowerCase` is modelled for ASCII letters only. Unicode case mapping is
  left out.
- `Math.ceil(words / 200)` is modelled as integer ceiling division. The
  floating-point quotient itself is usually inexact (201 / 200 is not a
  binary fraction), but its ceiling equals integer ceiling division for any
  word count below 2^53.
- Text.Decimal: JavaScript writes numbers from 10^21 up in exponent form.
  The model always writes plain digits. No realistic content reaches that
  many minutes.
- React rendering, the `useState` query state, animations, the navigation
  bar, the theme, the layout, the footer, the landing page's fixed sample
  data, and the blog index page are left out. The index page only passes
  the listing to the filter.
- The contact and create pages are left out. Their validation lives in a
  form library, and their submission is only a simulated delay with no
  state.
- Legacy script browser APIs are left out: DOM creation, modal handling,
  alerts, the form reset, `IntersectionObserver` animations and hover
  effects. The saved list's JSON encoding is also left out. A saved value
  that is not a list, such as `{}`, makes `unshift` throw, and that is not
  modelled.
- LegacyBlogs.LoadBlogs: the `.user-blogs` container is assumed present.
  On a page without it, `loadBlogs` returns before rendering anything, so
  no saved blog is shown there and a search has no saved blog articles to
  hide or show. The model always renders every saved blog.
- LegacyBlogs.Render: titles and authors are treated as plain text. They are
  inserted with `innerHTML`, so markup in them changes the text read back.
- LegacyBlogs.SearchBlogs: only articles built by `createBlogElement` are
  modelled. `.home-article` elements written into the page's static HTML are
  left out.
- `filterByCategory` is called by the category buttons at
  _legacy_backup/js/script.js:31, but it is not defined in that file, so
  its behaviour is not modelled.

=== FILE: blog_list.dfy ===
/** The search filter of the blog index: keeps the posts whose title,
    excerpt or category contains the query, ignoring letter case. Each
    field is lower-cased with `toLowerCase`, which throws when the field is
    `undefined`, so a post without a title makes the whole filter throw. */
module BlogList {
  import opened Outcome
  import opened Text
  import opened Posts

  /** The error JavaScript raises when `toLowerCase` is read off
      `undefined`; `field` names the post field involved. */
  datatype TypeError = UndefinedField(field: string)

  /** `field.toLowerCase().includes(query.toLowerCase())`. */
  function FieldIncludes(f: Field, name: string, query: string): (r: Result<bool, TypeError>)
    ensures r.Err? <==> f.None?
    ensures r.Err? ==> r.error == UndefinedField(name)
    ensures r.Ok? ==> (r.value <==> Hit(f, query))
  {
    match f
    case None => Err(UndefinedField(name))
    case Some(s) =>
      IncludesIsOccurs(Lower(s), Lower(query));
      Ok(Includes(Lower(s), Lower(query)))
  }

  /** The filter callback: the three tests joined by a short-circuit `||`,
      so a later field is only read when the earlier ones did not match. */
  function PostMatches(p: Post, query: string): (r: Result<bool, TypeError>)
    ensures r.Err? <==> Throws(p, query)
    ensures r.Ok? ==> (r.value <==> Matches(p, query))
  {
    match FieldIncludes(p.title, "title", query)
    case Err(e) => Err(e)
    case Ok(true) => Ok(true)
    case Ok(false) =>
      match FieldIncludes(p.excerpt, "excerpt", query)
      case Err(e) => Err(e)
      case Ok(true) => Ok(true)
      case Ok(false) => FieldIncludes(p.category, "category", query)
  }

  /** `initialPosts.filter(...)`: the matching posts in their order; the
      first callback that throws ends the filter with that error. */
  function Filter(posts: seq<Post>, query: string): (r: Result<seq<Post>, TypeError>)
    ensures r.Ok? ==> |r.value| <= |posts|
    ensures r.Ok? ==> forall p :: p in r.value ==> p in posts
    decreases |posts|
  {
    if |posts| == 0 then Ok([])
    else
      match PostMatches(posts[0], query)
      case Err(e) => Err(e)
      case Ok(keep) =>
        match Filter(posts[1..], query)
        case Err(e) => Err(e)
        case Ok(rest) =>
          assert forall p :: p in rest ==> p in posts by {
            assert forall p :: p in posts[1..] ==> p in posts;
          }
          Ok(if keep then [posts[0]] + rest else rest)
  }

  // ---------------------------------------------------------------------
  // Reference definitions
  // ---------------------------------------------------------------------

  /** The field is set and its lower-cased text contains the lower-cased
      query as a substring. */
  ghost predicate Hit(f: Field, query: string) {
    f.Some? && Occurs(Lower(f.value), Lower(query))
  }

  /** The search predicate: title, excerpt or category contains the query,
      ignoring letter case. */
  ghost predicate Matches(p: Post, query: string) {
    Hit(p.title, query) || Hit(p.excerpt, query) || Hit(p.category, query)
  }

  /** The callback throws: it reaches an `undefined` field before any
      earlier field matched. */
  ghost predicate Throws(p: Post, query: string) {
    || p.title.None?
    || (!Hit(p.title, query) && p.excerpt.None?)
    || (!Hit(p.title, query) && !Hit(p.excerpt, query) && p.category.None?)
  }

  /** `a` is `b` with some elements dropped, order kept. */
  ghost predicate IsSubsequence<T>(a: seq<T>, b: seq<T>)
    decreases |b|
  {
    if |a| == 0 then true
    else if |b| == 0 then false
    else if a[0] == b[0] then IsSubsequence(a[1..], b[1..])
    else IsSubsequence(a, b[1..])
  }

  // ---------------------------------------------------------------------
  // Properties of the filter
  // ---------------------------------------------------------------------

  /** The filter throws exactly when some post's callback throws. */
  lemma {:induction false} FilterThrowsIff(posts: seq<Post>, query: string)
    ensures Filter(posts, query).Err? <==> exists i :: 0 <= i < |posts| && Throws(posts[i], query)
    decreases |posts|
  {
    if |posts| > 0 {
      FilterThrowsIff(posts[1..], query);
      assert forall i :: 1 <= i < |posts| ==> posts[i] == posts[1..][i - 1];
      if exists i :: 0 <= i < |posts[1..]| && Throws(posts[1..][i], query) {
        var i :| 0 <= i < |posts[1..]| && Throws(posts[1..][i], query);
        assert Throws(posts[i + 1], query);
      }
    }
  }

  /** Soundness and completeness: a post is kept exactly when it is in the
      input and satisfies the search predicate. */
  lemma {:induction false} FilterKeepsExactlyMatches(posts: seq<Post>, query: string)
    requires Filter(posts, query).Ok?
    ensures forall p :: p in Filter(posts, query).value <==> p in posts && Matches(p, query)
    decreases |posts|
  {
    if |posts| > 0 {
      FilterKeepsExactlyMatches(posts[1..], query);
      assert posts == [posts[0]] + posts[1..];
    }
  }

  /** Every post is kept as many times as the input holds it when it
      matches, and not at all otherwise: with `FilterIsSubsequence` this
      fixes the result even when the input holds equal posts. */
  lemma {:induction false} FilterCounts(posts: seq<Post>, query: string)
    requires Filter(posts, query).Ok?
    ensures forall p :: multiset(Filter(posts, query).value)[p]
                          == if Matches(p, query) then multiset(posts)[p] else 0
    decreases |posts|
  {
    if |posts| > 0 {
      FilterCounts(posts[1..], query);
      assert posts == [posts[0]] + posts[1..];
    }
  }

  /** The result keeps the input's order. */
  lemma {:induction false} FilterIsSubsequence(posts: seq<Post>, query: string)
    requires Filter(posts, query).Ok?
    ensures IsSubsequence(Filter(posts, query).value, posts)
    decreases |posts|
  {
    if |posts| > 0 {
      FilterIsSubsequence(posts[1..], query);
      var rest := Filter(posts[1..], query).value;
      if PostMatches(posts[0], query).value {
        assert ([posts[0]] + rest)[1..] == rest;
      } else {
        SubsequenceSkip(rest, posts);
      }
    }
  }

  lemma SubsequenceSkip<T>(a: seq<T>, b: seq<T>)
    requires |b| > 0 && IsSubsequence(a, b[1..])
    ensures IsSubsequence(a, b)
  {
    if |a| > 0 && a[0] == b[0] {
      SubsequenceTail(a, b[1..]);
    }
  }

  /** Dropping the first element of a subsequence leaves a subsequence. */
  lemma {:induction false} SubsequenceTail<T>(a: seq<T>, b: seq<T>)
    requires |a| > 0 && IsSubsequence(a, b)
    ensures IsSubsequence(a[1..], b)
    decreases |b|
  {
    if |a| > 1 && a[1] == b[0] {
      if a[0] == b[0] {
        SubsequenceTail(a[1..], b[1..]);
      } else {
        SubsequenceTail(a, b[1..]);
        SubsequenceTail(a[1..], b[1..]);
      }
      assert a[1..][1..] == a[2..];
    } else if |a| > 1 && a[0] != b[0] {
      SubsequenceTail(a, b[1..]);
    }
  }

  /** The empty query keeps every post when every title is set (each
      string contains ""), and throws when one is missing. */
  lemma {:induction false} FilterEmptyQuery(posts: seq<Post>)
    ensures (forall i :: 0 <= i < |posts| ==> posts[i].title.Some?) ==> Filter(posts, "") == Ok(posts)
    ensures (exists i :: 0 <= i < |posts| && posts[i].title.None?) ==> Filter(posts, "").Err?
    decreases |posts|
  {
    if |posts| > 0 {
      FilterEmptyQuery(posts[1..]);
      assert forall i :: 1 <= i < |posts| ==> posts[i] == posts[1..][i - 1];
      if posts[0].title.Some? {
        IncludesEmpty(Lower(posts[0].title.value));
      }
      assert posts == [posts[0]] + posts[1..];
    }
  }

  /** Filtering the result again with the same query changes nothing. */
  lemma {:induction false} FilterIdempotent(posts: seq<Post>, query: string)
    requires Filter(posts, query).Ok?
    ensures Filter(Filter(posts, query).value, query) == Filter(posts, query)
    decreases |posts|
  {
    if |posts| > 0 {
      FilterIdempotent(posts[1..], query);
      var rest := Filter(posts[1..], query).value;
      if PostMatches(posts[0], query).value {
        assert ([posts[0]] + rest)[0] == posts[0] && ([posts[0]] + rest)[1..] == rest;
      }
    }
  }

  /** Queries equal up to letter case give the same outcome. */
  lemma {:induction false} FilterIgnoresQueryCase(posts: seq<Post>, q1: string, q2: string)
    requires Lower(q1) == Lower(q2)
    ensures Filter(posts, q1) == Filter(posts, q2)
    decreases |posts|
  {
    if |posts| > 0 {
      FilterIgnoresQueryCase(posts[1..], q1, q2);
    }
  }

  /** The component lower-cases the query itself, so a query typed in lower
      case already gives the outcome of any query lowering to it. */
  lemma FilterLowerQuery(posts: seq<Post>, query: string)
    ensures Filter(posts, Lower(query)) == Filter(posts, query)
  {
    LowerIdempotent(query);
    FilterIgnoresQueryCase(posts, Lower(query), query);
  }

  /** The three fields the search reads. */
  function SearchKey(p: Post): (Field, Field, Field) {
    (p.title, p.excerpt, p.category)
  }

  /** Slug, author, date, image, read time and content never affect the
      outcome: two lists that agree post by post on title, excerpt and
      category both throw or both give results agreeing on those fields. */
  lemma {:induction false} FilterReadsOnlySearchFields(a: seq<Post>, b: seq<Post>, query: string)
    requires |a| == |b|
    requires forall i :: 0 <= i < |a| ==> SearchKey(a[i]) == SearchKey(b[i])
    ensures Filter(a, query).Ok? <==> Filter(b, query).Ok?
    ensures Filter(a, query).Ok? ==>
              && |Filter(a, query).value| == |Filter(b, query).value|
              && forall i :: 0 <= i < |Filter(a, query).value| ==>
                   SearchKey(Filter(a, query).value[i]) == SearchKey(Filter(b, query).value[i])
    decreases |a|
  {
    if |a| > 0 {
      assert forall i :: 0 <= i < |a| - 1 ==> a[1..][i] == a[i + 1] && b[1..][i] == b[i + 1];
      FilterReadsOnlySearchFields(a[1..], b[1..], query);
      assert PostMatches(a[0], query) == PostMatches(b[0], query);
    }
  }

  /** A post with title "Hello", category "Tech" and no excerpt: the query
      "hel" keeps it, while "xyz" reaches the missing excerpt and throws. */
  lemma HelloExample()
    ensures var p := Post("hello", Some("Hello"), None, None, None, None, Some("Tech"), None, "");
            && Filter([p], "hel") == Ok([p])
            && Filter([p], "xyz") == Err(UndefinedField("excerpt"))
  {
    var p := Post("hello", Some("Hello"), None, None, None, None, Some("Tech"), None, "");
    assert Lower("Hello") == "hello";
    LowerOfLower("hel");
    LowerOfLower("xyz");
    assert "hel" <= "hello";
    IncludesNeedsFirstChar("hello", "xyz");
    assert PostMatches(p, "hel") == Ok(true);
    assert PostMatches(p, "xyz") == Err(UndefinedField("excerpt"));
    assert [p][1..] == [] && [p] + [] == [p];
  }
}

=== FILE: legacy_blogs.dfy ===
/** The legacy browser blog manager. The blogs saved in `localStorage`
    under the key `blogs` become a `Store` value, each operation returns
    the new store and the message it would show, and the rendered page is
    a sequence of `Article` values. Clock readings (`Date.now()`, the
    formatted date) and the object URL of an uploaded image are
    parameters. */
module LegacyBlogs {
  import opened Outcome
  import opened Text

  /** A saved blog. `image` is `null` when no file was chosen. */
  datatype Blog = Blog(
    id: int,
    title: string,
    author: string,
    content: string,
    image: Option<string>,
    date: string,
    readTime: string)

  /** The saved list: `None` when `localStorage` has no `blogs` entry. */
  type Store = Option<seq<Blog>>

  /** `JSON.parse(localStorage.getItem('blogs')) || []`. */
  function Stored(store: Store): (blogs: seq<Blog>)
    ensures store.None? ==> blogs == []
    ensures store.Some? ==> blogs == store.value
  {
    match store
    case None => []
    case Some(blogs) => blogs
  }

  // ---------------------------------------------------------------------
  // Read time
  // ---------------------------------------------------------------------

  const WordsPerMinute: nat := 200

  /** `content.split(' ').length`: the pieces between single spaces. */
  function WordCount(content: string): (words: nat)
    ensures words == Count(content, ' ') + 1
  {
    |Split(content, ' ')|
  }

  /** `Math.ceil(words / 200)` for a whole number of words. */
  function Minutes(words: nat): (m: nat)
    ensures m * WordsPerMinute >= words
    ensures m > 0 ==> (m - 1) * WordsPerMinute < words
  {
    (words + WordsPerMinute - 1) / WordsPerMinute
  }

  /** `Math.ceil(...) + ' min read'`. */
  function ReadTimeLabel(content: string): (tag: string)
    ensures |tag| > |" min read"|
    ensures tag[|tag| - |" min read"|..] == " min read"
    ensures forall i :: 0 <= i < |tag| - |" min read"| ==> IsDigit(tag[i])
    ensures |tag| - |" min read"| > 1 ==> tag[0] != '0'
  {
    Decimal(Minutes(WordCount(content))) + " min read"
  }

  /** The word count is one more than the number of spaces, so the read
      time is at least one minute and is the ceiling of words / 200. */
  lemma ReadTimeBounds(content: string)
    ensures WordCount(content) == Count(content, ' ') + 1
    ensures Minutes(WordCount(content)) >= 1
    ensures (Minutes(WordCount(content)) - 1) * WordsPerMinute < WordCount(content)
              <= Minutes(WordCount(content)) * WordsPerMinute
  {
  }

  /** The minutes can be read back from the tag. */
  lemma ReadTimeLabelRoundTrip(content: string)
    ensures var tag := ReadTimeLabel(content);
            var n := |tag| - |" min read"|;
            && n >= 1
            && tag[n..] == " min read"
            && (forall i :: 0 <= i < n ==> IsDigit(tag[i]))
            && (n > 1 ==> tag[0] != '0')
            && DecimalValue(tag[..n]) == Minutes(WordCount(content))
  {
    var d := Decimal(Minutes(WordCount(content)));
    var tag := ReadTimeLabel(content);
    assert tag[..|d|] == d && tag[|d|..] == " min read";
    DecimalRoundTrip(Minutes(WordCount(content)));
  }

  // ---------------------------------------------------------------------
  // Creating a blog
  // ---------------------------------------------------------------------

  /** The values of the form's title, author and content inputs. */
  datatype Form = Form(title: string, author: string, content: string)

  /** `!title || !author || !content` is false: no field is empty. */
  predicate Complete(form: Form)
    ensures Complete(form) <==> |form.title| > 0 && |form.author| > 0 && |form.content| > 0
  {
    form.title != "" && form.author != "" && form.content != ""
  }

  const MissingFieldsAlert: string := "Please fill in all required fields."
  const CreatedAlert: string := "Blog created successfully!"

  /** The store after an operation and the alert it shows. */
  datatype Effect = Effect(store: Store, alert: string)

  /** The blog `createBlog` builds from the form. */
  function NewBlog(form: Form, id: int, imageUrl: Option<string>, date: string): (b: Blog)
    ensures b.id == id && b.image == imageUrl && b.date == date
    ensures b.title == form.title && b.author == form.author && b.content == form.content
    ensures var n := |b.readTime| - |" min read"|;
            && n >= 1
            && b.readTime[n..] == " min read"
            && (forall i :: 0 <= i < n ==> IsDigit(b.readTime[i]))
            && (n > 1 ==> b.readTime[0] != '0')
            && var m := DecimalValue(b.readTime[..n]);
               (m - 1) * WordsPerMinute < Count(form.content, ' ') + 1 <= m * WordsPerMinute
  {
    ReadTimeLabelRoundTrip(form.content);
    ReadTimeBounds(form.content);
    Blog(id, form.title, form.author, form.content, imageUrl, date, ReadTimeLabel(form.content))
  }

  /** `createBlog()`: with every required field filled in, the new blog is
      put in front of the saved list; otherwise nothing is saved. */
  function CreateBlog(store: Store, form: Form, id: int, imageUrl: Option<string>, date: string)
    : (r: Effect)
    ensures !Complete(form) ==> r.store == store && r.alert == MissingFieldsAlert
    ensures Complete(form) ==>
              && r.alert == CreatedAlert
              && r.store.Some?
              && |r.store.value| == |Stored(store)| + 1
              && r.store.value[0] == NewBlog(form, id, imageUrl, date)
              && r.store.value[1..] == Stored(store)
  {
    if !Complete(form) then Effect(store, MissingFieldsAlert)
    else Effect(Some([NewBlog(form, id, imageUrl, date)] + Stored(store)), CreatedAlert)
  }

  /** With no saved list, a successful create saves a list of one blog. */
  lemma CreateOnEmptyStore(form: Form, id: int, imageUrl: Option<string>, date: string)
    requires Complete(form)
    ensures CreateBlog(None, form, id, imageUrl, date).store
            == Some([NewBlog(form, id, imageUrl, date)])
  {
    assert [NewBlog(form, id, imageUrl, date)] + [] == [NewBlog(form, id, imageUrl, date)];
  }

  // ---------------------------------------------------------------------
  // Viewing a blog
  // ---------------------------------------------------------------------

  /** `blogs.find(b => b.id === id)`, as the index of the first match. */
  function FindById(blogs: seq<Blog>, id: int): (r: Option<nat>)
    ensures r.None? <==> forall i :: 0 <= i < |blogs| ==> blogs[i].id != id
    ensures r.Some? ==> r.value < |blogs| && blogs[r.value].id == id
    ensures r.Some? ==> forall i :: 0 <= i < r.value ==> blogs[i].id != id
    decreases |blogs|
  {
    if |blogs| == 0 then None
    else if blogs[0].id == id then Some(0)
    else
      match FindById(blogs[1..], id)
      case None => None
      case Some(k) => Some(k + 1)
  }

  const PreviewLength: nat := 100

  /** `content.substring(0, 100)`. */
  function Preview(content: string): (r: string)
    ensures r <= content
    ensures |r| == if |content| < PreviewLength then |content| else PreviewLength
  {
    if |content| < PreviewLength then content else content[..PreviewLength]
  }

  /** The text of the alert `viewBlog` shows. */
  function ViewAlert(b: Blog): (text: string)
    ensures "Title: " + b.title + "\nAuthor: " + b.author + "\nContent: " <= text
    ensures text[|text| - 3..] == "..."
    ensures |text| == |b.title| + |b.author| + |Preview(b.content)| + 29
    ensures text[|text| - 3 - |Preview(b.content)|..|text| - 3] == Preview(b.content)
  {
    "Title: " + b.title + "\nAuthor: " + b.author + "\nContent: " + Preview(b.content) + "..."
  }

  /** `viewBlog(id)`: the alert for the first saved blog with this id, or
      nothing when no blog has it. */
  function ViewBlog(store: Store, id: int): (r: Option<string>)
    ensures r.None? <==> forall i :: 0 <= i < |Stored(store)| ==> Stored(store)[i].id != id
    ensures r.Some? ==> exists i :: 0 <= i < |Stored(store)| && Stored(store)[i].id == id
                                   && r.value == ViewAlert(Stored(store)[i])
                                   && forall j :: 0 <= j < i ==> Stored(store)[j].id != id
  {
    match FindById(Stored(store), id)
    case None => None
    case Some(i) => Some(ViewAlert(Stored(store)[i]))
  }

  /** Viewing the id just used by a successful create shows the new blog,
      even if an older blog has the same id. */
  lemma ViewAfterCreate(store: Store, form: Form, id: int, imageUrl: Option<string>, date: string)
    requires Complete(form)
    ensures ViewBlog(CreateBlog(store, form, id, imageUrl, date).store, id)
            == Some(ViewAlert(NewBlog(form, id, imageUrl, date)))
  {
  }

  // ---------------------------------------------------------------------
  // The rendered list and the search
  // ---------------------------------------------------------------------

  /** The parts of a rendered article the page reads back: the image
      source, the text of the first `div` inside it (the image container),
      the `h3` title, the author `div`, and the date line. */
  datatype Article = Article(
    imageSrc: string,
    firstDivText: string,
    titleText: string,
    authorText: string,
    metaText: string)

  const DefaultImage: string := "img/1.png"

  /** The text of the image container: only the whitespace around the
      `img` element in the template. */
  const ImageDivText: string := "\n            \n        "

  /** `createBlogElement(blog)`, for titles and authors without markup. */
  function Render(b: Blog): (a: Article)
    ensures a.titleText == b.title && a.authorText == b.author
    ensures a.firstDivText == ImageDivText
    ensures a.imageSrc != ""
    ensures a.imageSrc == DefaultImage || b.image == Some(a.imageSrc)
    ensures b.image.Some? && b.image.value != "" ==> a.imageSrc == b.image.value
  {
    Article(
      imageSrc := if b.image.None? || b.image.value == "" then DefaultImage else b.image.value,
      firstDivText := ImageDivText,
      titleText := b.title,
      authorText := b.author,
      metaText := b.date + " | " + b.readTime)
  }

  /** `loadBlogs()`: one article per saved blog, in saved order. */
  function LoadBlogs(store: Store): (r: seq<Article>)
    ensures store.None? ==> r == []
    ensures |r| == |Stored(store)|
    ensures forall i :: 0 <= i < |r| ==> r[i] == Render(Stored(store)[i])
  {
    var blogs := Stored(store);
    seq(|blogs|, i requires 0 <= i < |blogs| => Render(blogs[i]))
  }

  /** `createBlog` reloads the list after saving: the page then shows the
      new blog's article first, followed by the articles shown before. */
  lemma LoadAfterCreate(store: Store, form: Form, id: int, imageUrl: Option<string>, date: string)
    requires Complete(form)
    ensures LoadBlogs(CreateBlog(store, form, id, imageUrl, date).store)
            == [Render(NewBlog(form, id, imageUrl, date))] + LoadBlogs(store)
  {
    var blogs, nb := Stored(store), NewBlog(form, id, imageUrl, date);
    var saved := [nb] + blogs;
    assert CreateBlog(store, form, id, imageUrl, date).store == Some(saved);
    var after, before := LoadBlogs(Some(saved)), LoadBlogs(store);
    assert after[0] == Render(nb);
    forall i | 1 <= i < |after|
      ensures after[i] == before[i - 1]
    {
      assert saved[i] == blogs[i - 1];
    }
    assert after == [Render(nb)] + before;
  }

  /** `searchBlogs(query)` as written: the "author" it tests is the text of
      the first `div` of the article, which is the image container. */
  function SearchBlogsAsWritten(articles: seq<Article>, query: string): (shown: seq<bool>)
    ensures |shown| == |articles|
    ensures forall i :: 0 <= i < |articles| ==>
              (shown[i] <==> Occurs(Lower(articles[i].titleText), query)
                             || Occurs(Lower(articles[i].firstDivText), query))
  {
    assert forall i :: 0 <= i < |articles| ==>
             (Includes(Lower(articles[i].titleText), query) <==> Occurs(Lower(articles[i].titleText), query))
             && (Includes(Lower(articles[i].firstDivText), query) <==> Occurs(Lower(articles[i].firstDivText), query)) by {
      forall i | 0 <= i < |articles|
        ensures Includes(Lower(articles[i].titleText), query) <==> Occurs(Lower(articles[i].titleText), query)
        ensures Includes(Lower(articles[i].firstDivText), query) <==> Occurs(Lower(articles[i].firstDivText), query)
      {
        IncludesIsOccurs(Lower(articles[i].titleText), query);
        IncludesIsOccurs(Lower(articles[i].firstDivText), query);
      }
    }
    seq(|articles|, i requires 0 <= i < |articles| =>
      Includes(Lower(articles[i].titleText), query) || Includes(Lower(articles[i].firstDivText), query))
  }

  /** `searchBlogs(query)` reading the author `div`, as intended: an article
      is shown when its lower-cased title or author contains the query. */
  function SearchBlogs(articles: seq<Article>, query: string): (shown: seq<bool>)
    ensures |shown| == |articles|
    ensures forall i :: 0 <= i < |articles| ==>
              (shown[i] <==> Occurs(Lower(articles[i].titleText), query)
                             || Occurs(Lower(articles[i].authorText), query))
  {
    assert forall i :: 0 <= i < |articles| ==>
             (Includes(Lower(articles[i].titleText), query) <==> Occurs(Lower(articles[i].titleText), query))
             && (Includes(Lower(articles[i].authorText), query) <==> Occurs(Lower(articles[i].authorText), query)) by {
      forall i | 0 <= i < |articles|
        ensures Includes(Lower(articles[i].titleText), query) <==> Occurs(Lower(articles[i].titleText), query)
        ensures Includes(Lower(articles[i].authorText), query) <==> Occurs(Lower(articles[i].authorText), query)
      {
        IncludesIsOccurs(Lower(articles[i].titleText), query);
        IncludesIsOccurs(Lower(articles[i].authorText), query);
      }
    }
    seq(|articles|, i requires 0 <= i < |articles| =>
      Includes(Lower(articles[i].titleText), query) || Includes(Lower(articles[i].authorText), query))
  }

  /** The search form's submit handler as the page runs it: the typed query
      is lower-cased and `searchBlogs` as written runs over the articles of
      the saved blogs. Whether the author can match depends only on the
      image container's whitespace, never on the author. */
  function SearchAsWritten(store: Store, input: string): (shown: seq<bool>)
    ensures |shown| == |Stored(store)|
    ensures forall i :: 0 <= i < |Stored(store)| ==>
              (shown[i] <==> Occurs(Lower(Stored(store)[i].title), Lower(input))
                             || Occurs(Lower(ImageDivText), Lower(input)))
  {
    SearchBlogsAsWritten(LoadBlogs(store), Lower(input))
  }

  /** The submit handler with the author `div` searched, as intended. */
  function SearchAsIntended(store: Store, input: string): (shown: seq<bool>)
    ensures |shown| == |Stored(store)|
    ensures forall i :: 0 <= i < |Stored(store)| ==>
              (shown[i] <==> Occurs(Lower(Stored(store)[i].title), Lower(input))
                             || Occurs(Lower(Stored(store)[i].author), Lower(input)))
  {
    SearchBlogs(LoadBlogs(store), Lower(input))
  }

  /** Typed queries equal up to letter case show the same articles. */
  lemma SearchIgnoresQueryCase(store: Store, in1: string, in2: string)
    requires Lower(in1) == Lower(in2)
    ensures SearchAsIntended(store, in1) == SearchAsIntended(store, in2)
  {
  }

  /** A query containing something other than a space or a newline never
      occurs in the image container's text. */
  lemma NotInImageDiv(query: string, k: int)
    requires 0 <= k < |query| && query[k] != ' ' && query[k] != '\n'
    ensures !Occurs(Lower(ImageDivText), query)
  {
    assert Lower(ImageDivText) == ImageDivText;
    assert forall j :: 0 <= j < |ImageDivText| ==> ImageDivText[j] == ' ' || ImageDivText[j] == '\n';
    forall i
      ensures !OccursAt(ImageDivText, query, i)
    {
      if 0 <= i && i + |query| <= |ImageDivText| {
        assert ImageDivText[i..i + |query|][k] == ImageDivText[i + k];
      }
    }
  }

  /** As written, the search ignores authors: for an ordinary query an
      article is shown exactly when its title matches. */
  lemma SearchAsWrittenIgnoresAuthor(articles: seq<Article>, query: string, j: int, k: int)
    requires 0 <= j < |articles| && articles[j].firstDivText == ImageDivText
    requires 0 <= k < |query| && query[k] != ' ' && query[k] != '\n'
    ensures SearchBlogsAsWritten(articles, query)[j] <==> Includes(Lower(articles[j].titleText), query)
  {
    NotInImageDiv(query, k);
    IncludesIsOccurs(Lower(ImageDivText), query);
  }

  /** A concrete case: a blog by "Ann" titled "Tea" is hidden by the search
      as written when searching for "ann", and shown by the intended one. */
  lemma SearchAsWrittenMissesAuthor()
    ensures var store := Some([Blog(1, "Tea", "Ann", "x", None, "1/1/2024", ReadTimeLabel("x"))]);
            && SearchBlogsAsWritten(LoadBlogs(store), "ann") == [false]
            && SearchAsIntended(store, "ann") == [true]
  {
    var store := Some([Blog(1, "Tea", "Ann", "x", None, "1/1/2024", ReadTimeLabel("x"))]);
    var a := LoadBlogs(store)[0];
    NotInImageDiv("ann", 0);
    IncludesIsOccurs(Lower(ImageDivText), "ann");
    assert Lower("Tea") == "tea";
    assert Lower("Ann") == "ann";
    assert Lower("ann") == "ann";
    assert !Includes("tea", "ann");
    assert Includes("ann", "ann");
  }
}

=== FILE: outcome.dfy ===
/** How the JavaScript code's `undefined` values and thrown exceptions
    appear in the model. */
module Outcome {

  /** A property or saved value that may be `undefined` or `null`. */
  datatype Option<T> = None | Some(value: T)

  /** A call that either returns `value` or throws `error`. */
  datatype Result<T, E> = Ok(value: T) | Err(error: E)
}

=== FILE: posts.dfy ===
/** The post store reader: a directory of Markdown-with-components files,
    each with a front-matter block, read into `Post` records. The file
    system becomes a `Directory` value and the front-matter parser becomes
    a function parameter. */
module Posts {
  import opened Outcome
  import opened Text

  /** A metadata field of a post: absent (`undefined`) when the file's
      front matter has no such key. */
  type Field = Option<string>

  /** One blog post. `slug` and `content` are always set; every other field
      comes from the front matter and may be missing. */
  datatype Post = Post(
    slug: string,
    title: Field,
    date: Field,
    author: Field,
    excerpt: Field,
    image: Field,
    category: Field,
    readTime: Field,
    content: string)

  /** What the front-matter parser yields for a file: the metadata object
      and the body text after the front-matter block. */
  datatype Matter = Matter(data: map<string, string>, content: string)

  /** The front-matter parser, which may throw (an unterminated block,
      malformed metadata); the thrown message is the error. */
  type Parser = string -> Result<Matter, string>

  /** A file of the posts directory: its name and its text. */
  datatype Entry = Entry(name: string, text: string)

  /** The posts directory: missing, or its files in enumeration order. */
  datatype Directory = Missing | Present(entries: seq<Entry>)

  /** A real directory never holds two files of the same name. */
  ghost predicate DistinctNames(entries: seq<Entry>) {
    forall i, j :: 0 <= i < j < |entries| ==> entries[i].name != entries[j].name
  }

  // ---------------------------------------------------------------------
  // File names and slugs
  // ---------------------------------------------------------------------

  const Extension: string := ".mdx"

  predicate HasExtension(name: string) {
    |name| >= |Extension| && name[|name| - |Extension|..] == Extension
  }

  /** `fileName.replace(/\.mdx$/, "")`: drops one trailing `.mdx`, if any. */
  function Slug(name: string): (slug: string)
    ensures HasExtension(name) ==> slug + Extension == name
    ensures !HasExtension(name) ==> slug == name
  {
    if HasExtension(name) then name[..|name| - |Extension|] else name
  }

  /** The file name `getPostData` builds for a slug. */
  function FileName(slug: string): string {
    slug + Extension
  }

  /** The slug of `s + ".mdx"` is `s`, whatever `s` ends with. */
  lemma SlugOfFileName(s: string)
    ensures HasExtension(FileName(s))
    ensures Slug(FileName(s)) == s
  {
    assert FileName(s)[|FileName(s)| - |Extension|..] == Extension;
  }

  /** A name is a slug's file name exactly when it carries the extension. */
  lemma FileNameOfSlug(name: string)
    ensures FileName(Slug(name)) == name <==> HasExtension(name)
  {
    if FileName(Slug(name)) == name {
      SlugOfFileName(Slug(name));
    }
  }

  // ---------------------------------------------------------------------
  // Building a post from parsed front matter
  // ---------------------------------------------------------------------

  function Lookup(data: map<string, string>, key: string): Field {
    if key in data then Some(data[key]) else None
  }

  /** The object `{ slug, ...data, content }` as a map from property name to
      value: a later part of the literal overrides an earlier one, as the
      right operand of `+` on maps does. */
  function Spread(slug: string, m: Matter): (obj: map<string, string>)
    ensures obj.Keys == m.data.Keys + {"slug", "content"}
    ensures obj["slug"] == if "slug" in m.data then m.data["slug"] else slug
    ensures obj["content"] == m.content
    ensures forall k :: k in m.data && k != "content" ==> obj[k] == m.data[k]
  {
    map["slug" := slug] + m.data + map["content" := m.content]
  }

  /** The post built from the derived slug and the parsed front matter: each
      field is the property of the spread object with that name, and a
      property the object lacks is `undefined`. */
  function MakePost(slug: string, m: Matter): (p: Post)
    ensures p.slug == Spread(slug, m)["slug"]
    ensures p.content == Spread(slug, m)["content"]
    ensures p.title == Lookup(Spread(slug, m), "title")
    ensures p.date == Lookup(Spread(slug, m), "date")
    ensures p.author == Lookup(Spread(slug, m), "author")
    ensures p.excerpt == Lookup(Spread(slug, m), "excerpt")
    ensures p.image == Lookup(Spread(slug, m), "image")
    ensures p.category == Lookup(Spread(slug, m), "category")
    ensures p.readTime == Lookup(Spread(slug, m), "readTime")
  {
    var data := m.data;
    Post(
      slug := if "slug" in data then data["slug"] else slug,
      title := Lookup(data, "title"),
      date := Lookup(data, "date"),
      author := Lookup(data, "author"),
      excerpt := Lookup(data, "excerpt"),
      image := Lookup(data, "image"),
      category := Lookup(data, "category"),
      readTime := Lookup(data, "readTime"),
      content := m.content)
  }

  /** What the spread's order means for the post: a metadata `slug`
      overrides the derived one, the parser's body always wins over a
      metadata `content`, and any other field is the metadata's value. */
  lemma MakePostPrecedence(slug: string, m: Matter)
    ensures MakePost(slug, m).slug == if "slug" in m.data then m.data["slug"] else slug
    ensures MakePost(slug, m).content == m.content
    ensures MakePost(slug, m).title == Lookup(m.data, "title")
    ensures MakePost(slug, m).date == Lookup(m.data, "date")
  {
  }

  /** The post a file yields when its text parses. */
  function PostOf(parse: Parser, e: Entry): Post
    requires parse(e.text).Ok?
  {
    MakePost(Slug(e.name), parse(e.text).value)
  }

  // ---------------------------------------------------------------------
  // Reading every file, in enumeration order
  // ---------------------------------------------------------------------

  /** All files parse. */
  predicate AllParse(parse: Parser, entries: seq<Entry>) {
    forall i :: 0 <= i < |entries| ==> parse(entries[i].text).Ok?
  }

  /** `fileNames.map(...)`: one post per file, no extension filtering; the
      first file whose parse throws ends the whole listing with its error. */
  function ReadEntries(parse: Parser, entries: seq<Entry>): (r: Result<seq<Post>, string>)
    ensures r.Ok? <==> AllParse(parse, entries)
    ensures r.Ok? ==> |r.value| == |entries|
    ensures r.Ok? ==> forall i :: 0 <= i < |entries| ==> r.value[i] == PostOf(parse, entries[i])
    decreases |entries|
  {
    if |entries| == 0 then Ok([])
    else
      var tail := entries[1..];
      assert forall i :: 1 <= i < |entries| ==> entries[i] == tail[i - 1];
      assert AllParse(parse, entries) <==> parse(entries[0].text).Ok? && AllParse(parse, tail);
      match parse(entries[0].text)
      case Err(e) => Err(e)
      case Ok(m) =>
        match ReadEntries(parse, tail)
        case Err(e) => Err(e)
        case Ok(rest) =>
          var posts := [MakePost(Slug(entries[0].name), m)] + rest;
          assert forall i :: 1 <= i < |entries| ==> posts[i] == rest[i - 1];
          Ok(posts)
  }

  /** A failed listing reports the error of the first file, in enumeration
      order, whose parse throws. */
  lemma {:induction false} ReadEntriesFirstError(parse: Parser, entries: seq<Entry>)
    requires ReadEntries(parse, entries).Err?
    ensures exists i :: 0 <= i < |entries| && AllParse(parse, entries[..i])
                        && parse(entries[i].text) == Err(ReadEntries(parse, entries).error)
    decreases |entries|
  {
    var e := ReadEntries(parse, entries).error;
    if parse(entries[0].text).Err? {
      assert AllParse(parse, entries[..0]);
    } else {
      ReadEntriesFirstError(parse, entries[1..]);
      var i :| 0 <= i < |entries[1..]| && AllParse(parse, entries[1..][..i])
               && parse(entries[1..][i].text) == Err(e);
      assert entries[1..][..i] == entries[1..i + 1];
      assert entries[..i + 1] == [entries[0]] + entries[1..i + 1];
      assert AllParse(parse, entries[..i + 1]);
    }
  }

  // ---------------------------------------------------------------------
  // Sorting by date, newest first
  // ---------------------------------------------------------------------

  /** `a.date < b.date`. A missing date is `undefined`, and a comparison
      involving `undefined` is false. */
  predicate DateBefore(a: Post, b: Post)
    ensures DateBefore(a, b) ==> a.date.Some? && b.date.Some? && a.date != b.date
    ensures a.date.Some? && b.date.Some? && a.date != b.date ==>
              (DateBefore(a, b) <==> !Less(b.date.value, a.date.value))
  {
    var r := a.date.Some? && b.date.Some? && Less(a.date.value, b.date.value);
    assert a.date.Some? && b.date.Some? && a.date != b.date ==>
             (r <==> !Less(b.date.value, a.date.value)) by {
      if a.date.Some? && b.date.Some? && a.date != b.date {
        LessAsymmetric(a.date.value, b.date.value);
        LessTotal(a.date.value, b.date.value);
      }
    }
    r
  }


  /** No post is followed by one whose date is strictly later. */
  ghost predicate NewestFirst(posts: seq<Post>) {
    forall i :: 0 <= i < |posts| - 1 ==> !DateBefore(posts[i], posts[i + 1])
  }

  /** Inserts `p` in front of the first post the comparator
      `(a, b) => a.date < b.date ? 1 : -1` does not move it past. */
  function Insert(p: Post, posts: seq<Post>): (r: seq<Post>)
    ensures multiset(r) == multiset(posts) + multiset{p}
    ensures |r| == |posts| + 1
    ensures r[0] == p || (|posts| > 0 && r[0] == posts[0])
    decreases |posts|
  {
    if |posts| == 0 || !DateBefore(p, posts[0]) then [p] + posts
    else
      assert posts == [posts[0]] + posts[1..];
      [posts[0]] + Insert(p, posts[1..])
  }

  lemma {:induction false} InsertNewestFirst(p: Post, posts: seq<Post>)
    requires NewestFirst(posts)
    ensures NewestFirst(Insert(p, posts))
    decreases |posts|
  {
    if |posts| > 0 && DateBefore(p, posts[0]) {
      InsertNewestFirst(p, posts[1..]);
      var rest := Insert(p, posts[1..]);
      if rest[0] == p {
        LessAsymmetric(p.date.value, posts[0].date.value);
      }
      assert Insert(p, posts) == [posts[0]] + rest;
    }
  }

  /** `allPostsData.sort(...)`, by insertion. */
  function SortByDate(posts: seq<Post>): (r: seq<Post>)
    ensures multiset(r) == multiset(posts)
    ensures |r| == |posts|
    decreases |posts|
  {
    if |posts| == 0 then []
    else
      assert posts == [posts[0]] + posts[1..];
      Insert(posts[0], SortByDate(posts[1..]))
  }

  lemma {:induction false} SortByDateNewestFirst(posts: seq<Post>)
    ensures NewestFirst(SortByDate(posts))
    decreases |posts|
  {
    if |posts| > 0 {
      SortByDateNewestFirst(posts[1..]);
      InsertNewestFirst(posts[0], SortByDate(posts[1..]));
    }
  }

  /** Every post has a date. */
  ghost predicate AllDated(posts: seq<Post>) {
    forall i :: 0 <= i < |posts| ==> posts[i].date.Some?
  }

  /** No two posts share a date. */
  ghost predicate DistinctDates(posts: seq<Post>) {
    forall i, j :: 0 <= i < j < |posts| ==> posts[i].date != posts[j].date
  }

  lemma AllDatedPermutation(a: seq<Post>, b: seq<Post>)
    requires multiset(a) == multiset(b) && AllDated(a)
    ensures AllDated(b)
  {
    forall i | 0 <= i < |b|
      ensures b[i].date.Some?
    {
      assert b[i] in multiset(a);
    }
  }

  lemma NewestFirstTail(a: seq<Post>)
    requires |a| > 0 && NewestFirst(a)
    ensures NewestFirst(a[1..])
  {
    forall i | 0 <= i < |a| - 2
      ensures !DateBefore(a[1..][i], a[1..][i + 1])
    {
      assert a[1..][i] == a[i + 1];
    }
  }

  /** In a newest-first sequence with every date set, no post has a date
      strictly later than the first one's. */
  lemma {:induction false} NewestIsFirst(a: seq<Post>)
    requires NewestFirst(a) && AllDated(a)
    ensures forall i :: 0 <= i < |a| ==> !Less(a[0].date.value, a[i].date.value)
    decreases |a|
  {
    if |a| > 0 {
      LessAsymmetric(a[0].date.value, a[0].date.value);
    }
    if |a| > 1 {
      NewestFirstTail(a);
      NewestIsFirst(a[1..]);
      forall i | 1 <= i < |a|
        ensures !Less(a[0].date.value, a[i].date.value)
      {
        assert a[1..][i - 1] == a[i];
        var d0, d1, di := a[0].date.value, a[1].date.value, a[i].date.value;
        assert !Less(d1, di) && !Less(d0, d1);
        if Less(d0, di) && d1 != di {
          LessTotal(d1, di);
          LessTransitive(d0, di, d1);
        }
      }
    }
  }

  /** Two newest-first orderings of the same posts, all dated with distinct
      dates, start with the same post. */
  lemma SameNewest(a: seq<Post>, b: seq<Post>)
    requires |a| > 0 && multiset(a) == multiset(b)
    requires NewestFirst(a) && NewestFirst(b)
    requires AllDated(a) && DistinctDates(a)
    ensures |b| > 0 && a[0] == b[0]
  {
    assert |a| == |multiset(a)| == |multiset(b)| == |b|;
    AllDatedPermutation(a, b);
    NewestIsFirst(a);
    NewestIsFirst(b);
    assert a[0] in multiset(b) && b[0] in multiset(a);
    var i :| 0 <= i < |b| && b[i] == a[0];
    var j :| 0 <= j < |a| && a[j] == b[0];
    var da, db := a[0].date.value, b[0].date.value;
    assert !Less(da, db) && !Less(db, da);
    if da != db {
      LessTotal(da, db);
    }
    assert j == 0;
  }

  lemma TailPermutation(a: seq<Post>, b: seq<Post>)
    requires |a| > 0 && |b| > 0 && a[0] == b[0] && multiset(a) == multiset(b)
    ensures multiset(a[1..]) == multiset(b[1..])
  {
    assert a == [a[0]] + a[1..] && b == [b[0]] + b[1..];
    assert multiset(a[1..]) == multiset(a) - multiset{a[0]};
    assert multiset(b[1..]) == multiset(b) - multiset{b[0]};
  }

  lemma DatedTail(a: seq<Post>)
    requires |a| > 0 && AllDated(a) && DistinctDates(a)
    ensures AllDated(a[1..]) && DistinctDates(a[1..])
  {
    assert forall k :: 0 <= k < |a| - 1 ==> a[1..][k] == a[k + 1];
  }

  /** When every date is set and no two are equal, only one order is newest
      first: any sort the comparator drives yields this same listing. */
  lemma {:induction false} NewestFirstUnique(a: seq<Post>, b: seq<Post>)
    requires multiset(a) == multiset(b)
    requires NewestFirst(a) && NewestFirst(b)
    requires AllDated(a) && DistinctDates(a)
    ensures a == b
    decreases |a|
  {
    assert |a| == |multiset(a)| == |multiset(b)| == |b|;
    if |a| > 0 {
      SameNewest(a, b);
      TailPermutation(a, b);
      NewestFirstTail(a);
      NewestFirstTail(b);
      DatedTail(a);
      NewestFirstUnique(a[1..], b[1..]);
      assert a == [a[0]] + a[1..] && b == [b[0]] + b[1..];
    }
  }

  // ---------------------------------------------------------------------
  // The two public read operations
  // ---------------------------------------------------------------------

  /** `getSortedPostsData()`: every file as a post, newest first; a missing
      directory is an empty listing. */
  function GetSortedPostsData(parse: Parser, dir: Directory): (r: Result<seq<Post>, string>)
    ensures dir.Missing? ==> r == Ok([])
    ensures dir.Present? ==> (r.Ok? <==> AllParse(parse, dir.entries))
    ensures dir.Present? && r.Ok? ==> |r.value| == |dir.entries|
    ensures dir.Present? && r.Ok? ==>
              multiset(r.value) == multiset(ReadEntries(parse, dir.entries).value)
    ensures dir.Present? && r.Err? ==> ReadEntries(parse, dir.entries) == Err(r.error)
  {
    match dir
    case Missing => Ok([])
    case Present(entries) =>
      match ReadEntries(parse, entries)
      case Err(e) => Err(e)
      case Ok(posts) => Ok(SortByDate(posts))
  }

  /** The listing is newest first. */
  lemma ListingNewestFirst(parse: Parser, dir: Directory)
    requires GetSortedPostsData(parse, dir).Ok?
    ensures NewestFirst(GetSortedPostsData(parse, dir).value)
  {
    if dir.Present? {
      SortByDateNewestFirst(ReadEntries(parse, dir.entries).value);
    }
  }

  /** With every date set and no two equal, the listing is the only
      newest-first arrangement of the posts. */
  lemma ListingIsTheNewestFirstOrder(parse: Parser, dir: Directory, other: seq<Post>)
    requires GetSortedPostsData(parse, dir).Ok?
    requires AllDated(GetSortedPostsData(parse, dir).value)
    requires DistinctDates(GetSortedPostsData(parse, dir).value)
    requires multiset(other) == multiset(GetSortedPostsData(parse, dir).value)
    requires NewestFirst(other)
    ensures other == GetSortedPostsData(parse, dir).value
  {
    ListingNewestFirst(parse, dir);
    NewestFirstUnique(GetSortedPostsData(parse, dir).value, other);
  }

  /** The text of the file called `name`, if the directory holds one. */
  function FindEntry(entries: seq<Entry>, name: string): (r: Option<string>)
    ensures r.None? <==> forall i :: 0 <= i < |entries| ==> entries[i].name != name
    ensures r.Some? ==> exists i :: 0 <= i < |entries| && entries[i] == Entry(name, r.value)
    decreases |entries|
  {
    if |entries| == 0 then None
    else if entries[0].name == name then Some(entries[0].text)
    else
      var r := FindEntry(entries[1..], name);
      assert forall i :: 1 <= i < |entries| ==> entries[i] == entries[1..][i - 1];
      r
  }

  /** `fs.existsSync(path)` followed by `fs.readFileSync(path)`. */
  function ReadFile(dir: Directory, name: string): Option<string> {
    match dir
    case Missing => None
    case Present(entries) => FindEntry(entries, name)
  }

  ghost predicate HasFile(dir: Directory, name: string) {
    dir.Present? && exists i :: 0 <= i < |dir.entries| && dir.entries[i].name == name
  }

  /** `getPostData(slug)`: the post of the file `slug + ".mdx"`, absent
      when there is no such file. */
  function GetPostData(parse: Parser, dir: Directory, slug: string): (r: Result<Option<Post>, string>)
    ensures r == Ok(None) <==> !HasFile(dir, FileName(slug))
    ensures r.Err? ==> exists text :: Entry(FileName(slug), text) in EntriesOf(dir)
                                      && parse(text) == Err(r.error)
    ensures r.Ok? && r.value.Some? ==>
              exists text :: Entry(FileName(slug), text) in EntriesOf(dir)
                             && parse(text).Ok? && r.value.value == MakePost(slug, parse(text).value)
  {
    match ReadFile(dir, FileName(slug))
    case None => Ok(None)
    case Some(text) =>
      match parse(text)
      case Err(e) => Err(e)
      case Ok(m) => Ok(Some(MakePost(slug, m)))
  }

  function EntriesOf(dir: Directory): seq<Entry> {
    if dir.Present? then dir.entries else []
  }

  // ---------------------------------------------------------------------
  // Lookup and listing agree
  // ---------------------------------------------------------------------

  lemma {:induction false} FindEntryDistinct(entries: seq<Entry>, i: int)
    requires DistinctNames(entries)
    requires 0 <= i < |entries|
    ensures FindEntry(entries, entries[i].name) == Some(entries[i].text)
    decreases |entries|
  {
    if i > 0 {
      assert entries[0].name != entries[i].name;
      FindEntryDistinct(entries[1..], i - 1);
    }
  }

  /** For the file `s + ".mdx"`, `getPostData(s)` gives the post that the
      listing holds for that file. */
  lemma LookupAgreesWithListing(parse: Parser, dir: Directory, i: int, s: string)
    requires dir.Present? && DistinctNames(dir.entries)
    requires 0 <= i < |dir.entries| && dir.entries[i].name == FileName(s)
    requires AllParse(parse, dir.entries)
    ensures GetPostData(parse, dir, s) == Ok(Some(ReadEntries(parse, dir.entries).value[i]))
    ensures ReadEntries(parse, dir.entries).value[i] in GetSortedPostsData(parse, dir).value
  {
    FindEntryDistinct(dir.entries, i);
    SlugOfFileName(s);
    var posts := ReadEntries(parse, dir.entries).value;
    assert posts[i] in multiset(posts);
  }

  /** A listed post from a `.mdx` file is found again by its own slug (the
      index page's links resolve) when its metadata sets no slug or sets
      the one derived from the file name. */
  lemma ListedPostFoundBySlug(parse: Parser, dir: Directory, i: int)
    requires dir.Present? && DistinctNames(dir.entries)
    requires 0 <= i < |dir.entries| && HasExtension(dir.entries[i].name)
    requires AllParse(parse, dir.entries)
    requires var data := parse(dir.entries[i].text).value.data;
             "slug" in data ==> data["slug"] == Slug(dir.entries[i].name)
    ensures GetPostData(parse, dir, ReadEntries(parse, dir.entries).value[i].slug)
            == Ok(Some(ReadEntries(parse, dir.entries).value[i]))
  {
    var name := dir.entries[i].name;
    FileNameOfSlug(name);
    LookupAgreesWithListing(parse, dir, i, Slug(name));
  }

  /** The condition above matters: the file `a.mdx` whose metadata sets
      the slug `b` is listed as `b`, and looking `b` up finds no file. */
  lemma ForeignSlugNotFound()
    ensures var parse: Parser := _ => Ok(Matter(map["slug" := "b"], ""));
            var dir := Present([Entry("a.mdx", "")]);
            && ReadEntries(parse, dir.entries).Ok?
            && ReadEntries(parse, dir.entries).value[0].slug == "b"
            && GetPostData(parse, dir, "b") == Ok(None)
  {
    var parse: Parser := _ => Ok(Matter(map["slug" := "b"], ""));
    var dir := Present([Entry("a.mdx", "")]);
    assert FileName("b") == "b.mdx";
    assert dir.entries[0].name != "b.mdx";
  }

  /** A file without the extension is listed under its full name, but
      looking that name up searches for `name + ".mdx"` instead. */
  lemma UnsuffixedFileNotFound(parse: Parser, dir: Directory, i: int)
    requires dir.Present?
    requires 0 <= i < |dir.entries| && !HasExtension(dir.entries[i].name)
    requires !HasFile(dir, FileName(dir.entries[i].name))
    requires ReadEntries(parse, dir.entries).Ok?
    requires "slug" !in parse(dir.entries[i].text).value.data
    ensures ReadEntries(parse, dir.entries).value[i].slug == dir.entries[i].name
    ensures GetPostData(parse, dir, dir.entries[i].name) == Ok(None)
  {
  }

  // ---------------------------------------------------------------------
  // A worked listing
  // ---------------------------------------------------------------------

  /** A parser for the example below: the whole file is the date. */
  function DateOnly(text: string): Result<Matter, string> {
    Ok(Matter(map["date" := text], ""))
  }

  function ExampleDirectory(): Directory {
    Present([Entry(FileName("a"), "2023-01-01"), Entry(FileName("b"), "2023-06-15"),
             Entry(FileName("c"), "2022-12-31")])
  }

  /** The post `DateOnly` gives for a file. */
  function Dated(slug: string, date: string): Post {
    MakePost(slug, Matter(map["date" := date], ""))
  }

  lemma ReadCons(parse: Parser, e: Entry, rest: seq<Entry>)
    requires parse(e.text).Ok? && ReadEntries(parse, rest).Ok?
    ensures ReadEntries(parse, [e] + rest) == Ok([PostOf(parse, e)] + ReadEntries(parse, rest).value)
  {
    assert ([e] + rest)[0] == e && ([e] + rest)[1..] == rest;
  }

  lemma ReadThree(parse: Parser, ea: Entry, eb: Entry, ec: Entry)
    requires parse(ea.text).Ok? && parse(eb.text).Ok? && parse(ec.text).Ok?
    ensures ReadEntries(parse, [ea, eb, ec]) == Ok([PostOf(parse, ea), PostOf(parse, eb), PostOf(parse, ec)])
  {
    var pa, pb, pc := PostOf(parse, ea), PostOf(parse, eb), PostOf(parse, ec);
    assert [ec] + [] == [ec] && [pc] + [] == [pc];
    ReadCons(parse, ec, []);
    assert ReadEntries(parse, [ec]) == Ok([pc]);
    assert [eb] + [ec] == [eb, ec] && [pb] + [pc] == [pb, pc];
    ReadCons(parse, eb, [ec]);
    assert ReadEntries(parse, [eb, ec]) == Ok([pb, pc]);
    assert [ea] + [eb, ec] == [ea, eb, ec] && [pa] + [pb, pc] == [pa, pb, pc];
    ReadCons(parse, ea, [eb, ec]);
  }

  lemma ExampleRead()
    ensures ReadEntries(DateOnly, ExampleDirectory().entries)
            == Ok([Dated("a", "2023-01-01"), Dated("b", "2023-06-15"), Dated("c", "2022-12-31")])
  {
    var ea, eb, ec := Entry(FileName("a"), "2023-01-01"), Entry(FileName("b"), "2023-06-15"),
                      Entry(FileName("c"), "2022-12-31");
    ExamplePost("a", "2023-01-01");
    ExamplePost("b", "2023-06-15");
    ExamplePost("c", "2022-12-31");
    ReadThree(DateOnly, ea, eb, ec);
  }

  lemma ExamplePost(s: string, date: string)
    ensures PostOf(DateOnly, Entry(FileName(s), date)) == Dated(s, date)
  {
    SlugOfFileName(s);
  }

  lemma ExampleDates()
    ensures Less("2023-01-01", "2023-06-15")
    ensures !Less("2023-06-15", "2022-12-31")
    ensures !Less("2023-01-01", "2022-12-31")
  {
    assert Less("2022-12-31", "2023-06-15");
    assert Less("2022-12-31", "2023-01-01");
    LessAsymmetric("2022-12-31", "2023-06-15");
    LessAsymmetric("2022-12-31", "2023-01-01");
  }

  lemma SortOfThree(pa: Post, pb: Post, pc: Post)
    requires DateBefore(pa, pb) && !DateBefore(pb, pc) && !DateBefore(pa, pc)
    ensures SortByDate([pa, pb, pc]) == [pb, pa, pc]
  {
    assert [pa, pb, pc][1..] == [pb, pc] && [pb, pc][1..] == [pc] && [pc][1..] == [];
    assert SortByDate([pc]) == Insert(pc, []) == [pc];
    assert SortByDate([pb, pc]) == Insert(pb, [pc]) == [pb, pc];
    assert Insert(pa, [pc]) == [pa, pc];
    assert Insert(pa, [pb, pc]) == [pb] + Insert(pa, [pc]);
  }

  lemma ExampleSort()
    ensures SortByDate([Dated("a", "2023-01-01"), Dated("b", "2023-06-15"), Dated("c", "2022-12-31")])
            == [Dated("b", "2023-06-15"), Dated("a", "2023-01-01"), Dated("c", "2022-12-31")]
  {
    var pa, pb, pc := Dated("a", "2023-01-01"), Dated("b", "2023-06-15"), Dated("c", "2022-12-31");
    ExampleDates();
    assert pa.date == Some("2023-01-01") && pb.date == Some("2023-06-15") && pc.date == Some("2022-12-31");
    SortOfThree(pa, pb, pc);
  }

  /** Three files dated 2023-01-01, 2023-06-15 and 2022-12-31 are listed
      June first, then January, then December of the year before. */
  lemma ThreeDatesListing()
    ensures GetSortedPostsData(DateOnly, ExampleDirectory())
            == Ok([Dated("b", "2023-06-15"), Dated("a", "2023-01-01"), Dated("c", "2022-12-31")])
  {
    ExampleRead();
    ExampleSort();
  }
}

=== FILE: text.dfy ===
/** The JavaScript string operations the blog code relies on: `toLowerCase`
    (restricted to ASCII), `includes`, the `<` operator on strings,
    `split` on a one-character separator, and number-to-string conversion
    of a non-negative integer. */
module Text {

  // ---------------------------------------------------------------------
  // Lower-casing (ASCII only)
  // ---------------------------------------------------------------------

  predicate IsUpper(c: char) {
    'A' <= c <= 'Z'
  }

  /** `toLowerCase` on one character, for the ASCII letters. */
  function LowerChar(c: char): char {
    if IsUpper(c) then (c as int + 32) as char else c
  }

  /** `toLowerCase` on a string: every character mapped on its own. */
  function Lower(s: string): (r: string)
    ensures |r| == |s|
    ensures forall i :: 0 <= i < |s| ==> r[i] == LowerChar(s[i])
    ensures forall i :: 0 <= i < |r| ==> !IsUpper(r[i])
  {
    seq(|s|, i requires 0 <= i < |s| => LowerChar(s[i]))
  }

  /** Lower-casing twice is lower-casing once. */
  lemma LowerIdempotent(s: string)
    ensures Lower(Lower(s)) == Lower(s)
  {
    assert forall i :: 0 <= i < |s| ==> LowerChar(LowerChar(s[i])) == LowerChar(s[i]);
  }

  /** Lower-casing leaves a string with no upper-case letter unchanged. */
  lemma LowerOfLower(s: string)
    requires forall i :: 0 <= i < |s| ==> !IsUpper(s[i])
    ensures Lower(s) == s
  {
  }

  // ---------------------------------------------------------------------
  // Substring search
  // ---------------------------------------------------------------------

  /** `q` appears in `s` starting at index `i`. */
  ghost predicate OccursAt(s: string, q: string, i: int) {
    0 <= i && i + |q| <= |s| && s[i..i + |q|] == q
  }

  /** Reference meaning of `s.includes(q)`: `q` is a substring of `s`. */
  ghost predicate Occurs(s: string, q: string) {
    exists i :: OccursAt(s, q, i)
  }

  /** `s.includes(q)`: try every start position from the left. */
  function Includes(s: string, q: string): (r: bool)
    ensures |q| == 0 ==> r
    ensures r ==> |q| <= |s|
    decreases |s|
  {
    if q <= s then true
    else if |s| == 0 then false
    else Includes(s[1..], q)
  }

  /** `Includes` computes exactly substring occurrence. */
  lemma {:induction false} IncludesIsOccurs(s: string, q: string)
    ensures Includes(s, q) <==> Occurs(s, q)
    decreases |s|
  {
    if q <= s {
      assert OccursAt(s, q, 0);
    } else if |s| == 0 {
    } else {
      IncludesIsOccurs(s[1..], q);
      if Occurs(s[1..], q) {
        var i :| OccursAt(s[1..], q, i);
        assert s[1..][i..i + |q|] == s[i + 1..i + 1 + |q|];
        assert OccursAt(s, q, i + 1);
      }
      if Occurs(s, q) {
        var i :| OccursAt(s, q, i);
        assert i != 0;
        assert s[1..][i - 1..i - 1 + |q|] == s[i..i + |q|];
        assert OccursAt(s[1..], q, i - 1);
      }
    }
  }

  /** A query whose first character is absent from `s` is not included. */
  lemma {:induction false} IncludesNeedsFirstChar(s: string, q: string)
    requires |q| > 0 && q[0] !in s
    ensures !Includes(s, q)
    decreases |s|
  {
    if |s| > 0 {
      assert s[0] != q[0];
      IncludesNeedsFirstChar(s[1..], q);
    }
  }

  /** Every string includes the empty string. */
  lemma IncludesEmpty(s: string)
    ensures Includes(s, "")
  {
  }

  // ---------------------------------------------------------------------
  // The `<` operator on two strings
  // ---------------------------------------------------------------------

  /** `a < b` on strings: lexicographic order of the characters, a proper
      prefix before the longer string. */
  predicate Less(a: string, b: string)
    ensures Less(a, b) ==> |b| > 0 && a != b
    ensures |a| == 0 ==> (Less(a, b) <==> |b| > 0)
    decreases |a|
  {
    if |b| == 0 then false
    else if |a| == 0 then true
    else if a[0] != b[0] then a[0] < b[0]
    else Less(a[1..], b[1..])
  }

  /** Reference meaning of `Less`: after a common prefix of length `k`,
      either `a` ends while `b` goes on, or `a` has the smaller character. */
  ghost predicate LessAt(a: string, b: string, k: int) {
    && 0 <= k <= |a| && k <= |b| && a[..k] == b[..k]
    && ((k == |a| && k < |b|) || (k < |a| && k < |b| && a[k] < b[k]))
  }

  lemma {:induction false} LessIsLessAt(a: string, b: string)
    ensures Less(a, b) <==> exists k :: LessAt(a, b, k)
    decreases |a|
  {
    if |b| == 0 {
    } else if |a| == 0 {
      assert LessAt(a, b, 0);
    } else if a[0] != b[0] {
      if a[0] < b[0] {
        assert LessAt(a, b, 0);
      }
      if exists k :: LessAt(a, b, k) {
        var k :| LessAt(a, b, k);
        assert forall j :: 0 <= j < k ==> a[j] == a[..k][j] == b[..k][j] == b[j];
        assert k == 0;
      }
    } else {
      LessIsLessAt(a[1..], b[1..]);
      if Less(a[1..], b[1..]) {
        var k :| LessAt(a[1..], b[1..], k);
        assert a[..k + 1] == [a[0]] + a[1..][..k];
        assert b[..k + 1] == [b[0]] + b[1..][..k];
        assert LessAt(a, b, k + 1);
      }
      if exists k :: LessAt(a, b, k) {
        var k :| LessAt(a, b, k);
        assert k > 0;
        assert a[1..][..k - 1] == a[..k][1..];
        assert b[1..][..k - 1] == b[..k][1..];
        assert LessAt(a[1..], b[1..], k - 1);
      }
    }
  }

  /** `<` on strings is never true in both directions. */
  lemma {:induction false} LessAsymmetric(a: string, b: string)
    ensures !(Less(a, b) && Less(b, a))
    decreases |a|
  {
    if |a| > 0 && |b| > 0 && a[0] == b[0] {
      LessAsymmetric(a[1..], b[1..]);
    }
  }

  /** Two different strings are always ordered one way or the other. */
  lemma {:induction false} LessTotal(a: string, b: string)
    requires a != b
    ensures Less(a, b) || Less(b, a)
    decreases |a|
  {
    if |a| > 0 && |b| > 0 && a[0] == b[0] {
      assert a == [a[0]] + a[1..] && b == [b[0]] + b[1..];
      LessTotal(a[1..], b[1..]);
    }
  }

  /** `<` on strings is transitive. */
  lemma {:induction false} LessTransitive(a: string, b: string, c: string)
    requires Less(a, b) && Less(b, c)
    ensures Less(a, c)
    decreases |a|
  {
    if |a| > 0 && a[0] == b[0] && b[0] == c[0] {
      LessTransitive(a[1..], b[1..], c[1..]);
    }
  }

  // ---------------------------------------------------------------------
  // Splitting on a one-character separator and joining back
  // ---------------------------------------------------------------------

  /** Number of occurrences of `c` in `s`. */
  function Count(s: string, c: char): nat
    decreases |s|
  {
    if |s| == 0 then 0
    else (if s[0] == c then 1 else 0) + Count(s[1..], c)
  }

  /** `s.split(sep)` for a one-character string separator: the pieces between
      the occurrences of `sep`, so the empty string gives one empty piece. */
  function Split(s: string, sep: char): (parts: seq<string>)
    ensures |parts| == Count(s, sep) + 1
    ensures forall i :: 0 <= i < |parts| ==> sep !in parts[i]
    decreases |s|
  {
    if |s| == 0 then [""]
    else
      var rest := Split(s[1..], sep);
      if s[0] == sep then [""] + rest
      else [[s[0]] + rest[0]] + rest[1..]
  }

  /** `parts.join(sep)`. */
  function Join(parts: seq<string>, sep: char): string
    decreases |parts|
  {
    if |parts| == 0 then ""
    else if |parts| == 1 then parts[0]
    else parts[0] + [sep] + Join(parts[1..], sep)
  }

  /** Joining the pieces of a split gives back the original string. */
  lemma {:induction false} JoinSplit(s: string, sep: char)
    ensures Join(Split(s, sep), sep) == s
    decreases |s|
  {
    if |s| > 0 {
      JoinSplit(s[1..], sep);
      var rest := Split(s[1..], sep);
      if s[0] != sep {
        if |rest| == 1 {
          assert Join(rest, sep) == rest[0];
        } else {
          assert Join(rest, sep) == rest[0] + [sep] + Join(rest[1..], sep);
          assert Join([[s[0]] + rest[0]] + rest[1..], sep)
              == [s[0]] + rest[0] + [sep] + Join(rest[1..], sep);
        }
        assert s == [s[0]] + s[1..];
      } else {
        assert s == [s[0]] + s[1..];
      }
    }
  }

  /** Splitting a separator-free piece followed by the separator. */
  lemma {:induction false} SplitPieceThenSep(p: string, sep: char, rest: string)
    requires sep !in p
    ensures Split(p + [sep] + rest, sep) == [p] + Split(rest, sep)
    decreases |p|
  {
    if |p| == 0 {
      assert p + [sep] + rest == [sep] + rest;
      assert ([sep] + rest)[1..] == rest;
    } else {
      var s := p + [sep] + rest;
      assert s[0] == p[0] && s[1..] == p[1..] + [sep] + rest;
      SplitPieceThenSep(p[1..], sep, rest);
      assert [p[0]] + p[1..] == p;
    }
  }

  /** Splitting a separator-free string gives that one piece. */
  lemma {:induction false} SplitNoSep(p: string, sep: char)
    requires sep !in p
    ensures Split(p, sep) == [p]
    decreases |p|
  {
    if |p| > 0 {
      SplitNoSep(p[1..], sep);
      assert [p[0]] + p[1..] == p;
    }
  }

  /** Splitting a join of separator-free pieces gives back the pieces. */
  lemma {:induction false} SplitJoin(parts: seq<string>, sep: char)
    requires |parts| >= 1
    requires forall i :: 0 <= i < |parts| ==> sep !in parts[i]
    ensures Split(Join(parts, sep), sep) == parts
    decreases |parts|
  {
    if |parts| == 1 {
      SplitNoSep(parts[0], sep);
    } else {
      SplitJoin(parts[1..], sep);
      SplitPieceThenSep(parts[0], sep, Join(parts[1..], sep));
      assert [parts[0]] + parts[1..] == parts;
    }
  }

  // ---------------------------------------------------------------------
  // Number to string (non-negative integers)
  // ---------------------------------------------------------------------

  predicate IsDigit(c: char) {
    '0' <= c <= '9'
  }

  function DigitChar(d: nat): char
    requires d < 10
  {
    ('0' as int + d) as char
  }

  /** `String(n)` for a non-negative integer: its decimal digits. */
  function Decimal(n: nat): (s: string)
    ensures |s| >= 1
    ensures forall i :: 0 <= i < |s| ==> IsDigit(s[i])
    ensures |s| > 1 ==> s[0] != '0'
    decreases n
  {
    if n < 10 then [DigitChar(n)]
    else Decimal(n / 10) + [DigitChar(n % 10)]
  }

  /** Reads a string of decimal digits back as a number. */
  function DecimalValue(s: string): nat
    requires forall i :: 0 <= i < |s| ==> IsDigit(s[i])
    decreases |s|
  {
    if |s| == 0 then 0
    else
      assert IsDigit(s[|s| - 1]);
      DecimalValue(s[..|s| - 1]) * 10 + (s[|s| - 1] as int - '0' as int)
  }

  /** Reading the decimal form of `n` gives `n` back. */
  lemma {:induction false} DecimalRoundTrip(n: nat)
    ensures DecimalValue(Decimal(n)) == n
    decreases n
  {
    if n >= 10 {
      DecimalRoundTrip(n / 10);
      var s := Decimal(n);
      assert s[..|s| - 1] == Decimal(n / 10);
    }
  }
}
